=== FILE: README.md ===
# Flight search form — Dafny model

This project models the search step of the `FlightSearch` component. That component is a
tabbed "One Way" / "Return" form that filters a static list of flight records. The model
covers these parts:

- the origin/destination guard, which shows an alert and returns early when either end is
  unknown to the dataset;
- the exact-match filter on origin, destination, departure date and return date;
- the cheapest-flight `reduce` over the matches;
- the toggle of `showFormData`, the visibility flag of the "Your Ticket" card;
- the schema's required-field rules and the Search button's disabled condition;
- the tab change;
- the delayed initial load of the whole dataset.

The bundled flight list is a parameter (`seq<Flight>`). The component state is the record
`State(searchResults, showFormData)`. Every handler is a pure function on these values.

`searchResults` is kept in state but never rendered; the cheapest flight is computed and
then discarded. The matches reach only a `console.log`. `showFormData` shows or hides
the "Your Ticket" card, which echoes the form's own values. In this README and in the
model, a flight is "listed" when it is held in `searchResults`, whether or not anything
shows it.

Modules:

- `FlightData` (`flight_data.dfy`): the `Flight` record, the form's `FormValues`, the
  initial form values, and `SameRoute`, which says two forms agree on the four compared
  fields.
- `FlightSearch` (`flight_search.dfy`): the guard, `Filter`, the `reduce` fold, `Search`,
  `ToggleFormData`, `HandleSearchSubmit` and the initial load.
- `SearchForm` (`search_form.dfy`): the validated `Field`s, `Errors`, `SubmitDisabled`,
  `TabChange` and `Submit`. `Submit` runs the schema before the search, as the form
  library's submit does.

Route fields are compared with `===`. A query that differs from the dataset only in
letter case, such as "nyc" for "NYC", is therefore rejected by the guard;
`CaseSensitiveRoute` shows it. `ExactSpellingFindsFlight` shows that the same query
spelled as in the dataset finds the flight.

Switching tabs keeps every value entered. A return date chosen on the "Return" tab is still
compared after switching back to "One Way", so one-way flights on that route are then not
held in `searchResults`. `StaleReturnDateHidesOneWayFlights` states this behaviour. It is
not reported as a defect, because the code does not make the intent clear.

## Model

| member | source | states |
|---|---|---|
| FlightSearch.Filter | src/component/FlightSearch.jsx:79-86 | a flight is in the results iff it is in the dataset and `Matches` the form, that is equals it on origin, destination, departure date and return date; the results are never longer than the dataset |
| FlightSearch.FilterCounts | src/component/FlightSearch.jsx:79-86 | each matching flight occurs in the results exactly as often as in the dataset, and every other flight not at all |
| FlightSearch.FilterAppend | src/component/FlightSearch.jsx:79-86 | filtering a concatenation gives the filtered parts in the same order, so the filter keeps dataset order |
| FlightSearch.FilterIdempotent | src/component/FlightSearch.jsx:79-86 | filtering the results again with the same form changes nothing |
| FlightSearch.FilterSameRoute | src/component/FlightSearch.jsx:79-86 | two forms that agree on origin, destination, departure date and return date filter any dataset identically |
| FlightSearch.ReduceIndex | src/component/FlightSearch.jsx:91-93 | the fold with callback `prev.price < current.price ? prev : current` ends on a flight no dearer than the start and no dearer than any flight still to come, and every flight still to come after it is strictly dearer |
| FlightSearch.CheapestIndex | src/component/FlightSearch.jsx:90-93 | on non-empty results the selected position has a price no greater than every result's price, and every later result is strictly dearer, so a tie keeps the last cheapest flight |
| FlightSearch.MatchingFlightPassesGuard | src/component/FlightSearch.jsx:68-78 | the guard `ValidRoute` (some flight has the origin and some flight has the destination) holds whenever any dataset flight matches the form, so a rejected search is one that would have listed nothing |
| FlightSearch.CheapestIndexIsTheLastCheapest | src/component/FlightSearch.jsx:91-93 | a position is the last one with the lowest price if and only if it is the position the reduce selects |
| FlightSearch.Search | src/component/FlightSearch.jsx:67-97 | the search is rejected exactly when the guard `ValidRoute` fails, that is when the origin or the destination occurs in no flight; otherwise a flight is in the results iff it is in the dataset and matches, and a flight is selected iff the results are non-empty, that flight being one of the results and the cheapest |
| FlightSearch.ToggleFormData | src/component/FlightSearch.jsx:127-129 | the ticket card's visibility flag flips and `searchResults` stays |
| FlightSearch.HandleSearchSubmit | src/component/FlightSearch.jsx:67-101 | an unknown origin or destination leaves the whole state unchanged; any other search flips the visibility flag and lists exactly the dataset's matching flights, never more of them than the dataset holds |
| FlightSearch.PassingSearchListsFilter | src/component/FlightSearch.jsx:79-88 | after a passing search, the listed flights are the order-preserving filter of the dataset, with each matching flight's multiplicity kept |
| FlightSearch.SearchSameRoute | src/component/FlightSearch.jsx:79-86 | passenger type, price range and tab do not affect the outcome or the new state |
| FlightSearch.EmptyReturnDateListsOneWayOnly | src/component/FlightSearch.jsx:84 | with an empty return date on the form, a search that passes the origin/destination guard lists only flights with an empty return date |
| FlightSearch.SelectedIsLastCheapest | src/component/FlightSearch.jsx:90-93 | the selected flight sits at the last position of the results holding the lowest price |
| FlightSearch.TwoPassingSearchesRestoreVisibility | src/component/FlightSearch.jsx:99-100 | two passing searches in a row restore the ticket card's original visibility |
| FlightSearch.CaseSensitiveRoute | src/component/FlightSearch.jsx:68-78 | a lower-case origin does not match the dataset's upper-case origin, and the guard rejects the search |
| FlightSearch.ExactSpellingFindsFlight | src/component/FlightSearch.jsx:79-93 | the same query spelled as in the dataset lists that one flight and selects it |
| FlightSearch.LoadedResultsAreTheDataset | src/component/FlightSearch.jsx:45-49 | `InitialLoad`, the delayed load, lists the dataset itself, in its order and with its duplicates, and leaves visibility unchanged |
| SearchForm.Errors | src/component/FlightSearch.jsx:26-39 | a field is reported iff it is empty and required: origin, destination, departure date and passengers are always required, and the return date only on tab 1 |
| SearchForm.ReturnDateRequiredIff | src/component/FlightSearch.jsx:31-34 | an empty return date is an error iff the "Return" tab (1) is selected |
| SearchForm.SubmitEnabledIff | src/component/FlightSearch.jsx:279 | `SubmitDisabled` (the error set is non-empty) is false, so the Search button is enabled, iff origin, destination, departure date and passengers are filled in, and so is the return date when the "Return" tab is selected |
| SearchForm.InitialErrors | src/component/FlightSearch.jsx:52-60 | the fresh form reports the four always-required fields on "One Way", and the return date as well on "Return" |
| SearchForm.TabChange | src/component/FlightSearch.jsx:113-119 | switching tabs records the new tab and keeps the route fields, passengers and price range |
| SearchForm.TabChangeKeepsSearch | src/component/FlightSearch.jsx:113-119 | switching tabs changes neither the outcome of a search nor the state it produces |
| SearchForm.Submit | src/component/FlightSearch.jsx:62-64 | a submit with any error changes nothing; a submit without errors is the search step |
| SearchForm.SubmittedResultsHaveRequiredFields | src/component/FlightSearch.jsx:26-39 | after a submit that passes both the schema and the origin/destination guard, every listed flight has a non-empty origin, destination and departure date, and a non-empty return date on the "Return" tab |
| SearchForm.FreshOneWaySearchListsOneWayOnly | src/component/FlightSearch.jsx:51-60 | from the initial values with origin, destination, departure date and passengers filled in and a route that passes the guard, a one-way search lists only flights with an empty return date |
| SearchForm.StaleReturnDateHidesOneWayFlights | src/component/FlightSearch.jsx:113-119 | a return date chosen on "Return" survives a switch to "One Way", so a one-way flight on the same route and day is not listed, although the form is valid |

## Left out

- React rendering, the MUI components, the layout and the ticket card: these are display only.
- The form library's plumbing is not modelled: change handlers, touched flags and the
  initially empty errors object. Before the first validation, that empty object leaves the
  button enabled. The model always validates.
- The schema library's internals are not modelled, such as date parsing and the `min(1)`
  length rule on passengers. A field counts as missing exactly when it is the empty string.
  This matches `min(1)` on a string. It ignores what the date type makes of a non-date
  string.
- `alert` and `console.log` are I/O. The alert appears only as the `InvalidRoute` outcome.
  The selected cheapest flight, which the code computes and then discards, is kept in the
  `Found` outcome so that its properties can be stated.
- The one-second `setTimeout` is not modelled as timing. `InitialLoad` is the state change
  it makes.
- The JSON imports of the flight list and of the date option lists become parameters. The
  date options only populate menus, so they do not appear.
- The price slider and the displayed "Price" are display only and are not used in filtering.
- Prices are modelled as mathematical integers. JSON numbers may be fractional, and only
  their order matters here.

=== FILE: flight_data.dfy ===
/** The records the flight-search form works on: the flights of the bundled
    dataset and the values held by the search form. */
module FlightData {

  /** Conventional optional value. */
  datatype Option<T> = None | Some(value: T)

  /** One record of the bundled, read-only flight list. A one-way flight has
      an empty `returnDate`. */
  datatype Flight = Flight(
    airline: string,
    origin: string,
    destination: string,
    departureDate: string,
    returnDate: string,
    price: int
  )

  /** The values of the search form. `tabValue` is 0 on the "One Way" tab and
      1 on the "Return" tab; the price range is the slider's two ends. */
  datatype FormValues = FormValues(
    tabValue: int,
    origin: string,
    destination: string,
    departureDate: string,
    returnDate: string,
    passengers: string,
    priceLow: int,
    priceHigh: int
  )

  const OneWayTab: int := 0
  const ReturnTab: int := 1

  /** The values the form starts with: every text field empty, the "One Way"
      tab selected and the full price range. */
  const InitialValues: FormValues :=
    FormValues(OneWayTab, "", "", "", "", "", 0, 1000)

  /** The four fields a search compares, the only ones that decide a match. */
  predicate SameRoute(v: FormValues, w: FormValues)
  {
    && v.origin == w.origin
    && v.destination == w.destination
    && v.departureDate == w.departureDate
    && v.returnDate == w.returnDate
  }
}

=== FILE: flight_search.dfy ===
/** The search step of the flight-search component: the origin/destination
    guard, the exact-match filter over the dataset, the cheapest-flight
    selection and the ticket card's visibility flag. A flight is "listed"
    when it is held in `searchResults`; the component never renders that
    list. */
module FlightSearch {
  import opened FlightData

  /** The component state the search step changes. */
  datatype State = State(searchResults: seq<Flight>, showFormData: bool)

  /** Before the dataset is loaded no flight is listed and the ticket
      card is hidden. */
  const InitialState: State := State([], false)

  /** The one-second delayed load: the whole dataset replaces the listed
      flights; visibility is not touched. */
  function InitialLoad(data: seq<Flight>, st: State): State
  {
    st.(searchResults := data)
  }

  /** Some flight of the dataset leaves from `origin`. */
  predicate KnownOrigin(data: seq<Flight>, origin: string)
  {
    exists i :: 0 <= i < |data| && data[i].origin == origin
  }

  /** Some flight of the dataset arrives at `destination`. */
  predicate KnownDestination(data: seq<Flight>, destination: string)
  {
    exists i :: 0 <= i < |data| && data[i].destination == destination
  }

  /** The guard of the search: both ends of the route occur in the dataset. */
  predicate ValidRoute(data: seq<Flight>, v: FormValues)
  {
    KnownOrigin(data, v.origin) && KnownDestination(data, v.destination)
  }

  /** The guard never turns away a search that would list a flight: any
      matching flight of the dataset makes the route valid, so a rejected
      search is one whose results would have been empty. */
  lemma MatchingFlightPassesGuard(data: seq<Flight>, v: FormValues, i: int)
    requires 0 <= i < |data| && Matches(data[i], v)
    ensures ValidRoute(data, v)
  {
  }

  /** A flight matches the form when the four compared fields are equal,
      character for character. */
  predicate Matches(f: Flight, v: FormValues)
  {
    && f.origin == v.origin
    && f.destination == v.destination
    && f.departureDate == v.departureDate
    && f.returnDate == v.returnDate
  }

  /** The flights of `data` that match `v`, in dataset order. */
  function Filter(data: seq<Flight>, v: FormValues): (r: seq<Flight>)
    ensures |r| <= |data|
    ensures forall f :: f in r <==> f in data && Matches(f, v)
  {
    if data == [] then []
    else
      var rest := Filter(data[1..], v);
      if Matches(data[0], v) then [data[0]] + rest else rest
  }

  /** The filter keeps every matching flight as often as the dataset holds
      it, and drops every other flight. */
  lemma {:induction false} FilterCounts(data: seq<Flight>, v: FormValues)
    ensures forall f :: multiset(Filter(data, v))[f] == if Matches(f, v) then multiset(data)[f] else 0
  {
    if data != [] {
      FilterCounts(data[1..], v);
      assert data == [data[0]] + data[1..];
      assert multiset(data) == multiset([data[0]]) + multiset(data[1..]);
    }
  }

  /** Filtering a concatenation filters each part and keeps them in order:
      the filter never reorders the dataset. */
  lemma {:induction false} FilterAppend(a: seq<Flight>, b: seq<Flight>, v: FormValues)
    ensures Filter(a + b, v) == Filter(a, v) + Filter(b, v)
  {
    if a == [] {
      assert a + b == b;
    } else {
      var ab := a + b;
      assert ab != [] && ab[0] == a[0] && ab[1..] == a[1..] + b;
      FilterAppend(a[1..], b, v);
      var tail := Filter(a[1..], v) + Filter(b, v);
      if Matches(a[0], v) {
        assert Filter(ab, v) == [a[0]] + tail;
        assert Filter(a, v) == [a[0]] + Filter(a[1..], v);
      } else {
        assert Filter(ab, v) == tail;
      }
    }
  }

  /** Filtering the results again changes nothing. */
  lemma {:induction false} FilterIdempotent(data: seq<Flight>, v: FormValues)
    ensures Filter(Filter(data, v), v) == Filter(data, v)
  {
    if data != [] {
      FilterIdempotent(data[1..], v);
      if Matches(data[0], v) {
        var r := Filter(data, v);
        assert r[0] == data[0] && r[1..] == Filter(data[1..], v);
      }
    }
  }

  /** The filter depends only on the four compared fields of the form. */
  lemma {:induction false} FilterSameRoute(data: seq<Flight>, v: FormValues, w: FormValues)
    requires SameRoute(v, w)
    ensures Filter(data, v) == Filter(data, w)
  {
    if data != [] {
      FilterSameRoute(data[1..], v, w);
    }
  }

  /** The fold of the results' `reduce`: `acc` is the index of the flight kept
      so far and `i` the next index; the callback keeps the earlier flight
      only when it is strictly cheaper. */
  function ReduceIndex(rs: seq<Flight>, acc: nat, i: nat): (r: nat)
    requires acc < i <= |rs|
    decreases |rs| - i
    ensures acc <= r < |rs|
    ensures r == acc || i <= r
    ensures rs[r].price <= rs[acc].price
    ensures forall j :: i <= j < |rs| ==> rs[r].price <= rs[j].price
    ensures forall j :: i <= j < |rs| && r < j ==> rs[r].price < rs[j].price
  {
    if i == |rs| then acc
    else
      var next := if rs[acc].price < rs[i].price then acc else i;
      ReduceIndex(rs, next, i + 1)
  }

  /** The position of the flight the search selects: no listed flight is
      cheaper, and every later one is dearer, so on a tie in price it is the
      last of the cheapest. */
  function CheapestIndex(rs: seq<Flight>): (k: nat)
    requires |rs| > 0
    ensures k < |rs|
    ensures forall j :: 0 <= j < |rs| ==> rs[k].price <= rs[j].price
    ensures forall j :: k < j < |rs| ==> rs[k].price < rs[j].price
  {
    ReduceIndex(rs, 0, 1)
  }

  /** `k` is the last position holding the lowest price of `rs`. */
  predicate IsLastCheapest(rs: seq<Flight>, k: int)
  {
    && 0 <= k < |rs|
    && (forall j :: 0 <= j < |rs| ==> rs[k].price <= rs[j].price)
    && (forall j :: k < j < |rs| ==> rs[k].price < rs[j].price)
  }

  /** The last-cheapest position is unique, so the selection is exactly it. */
  lemma CheapestIndexIsTheLastCheapest(rs: seq<Flight>, k: int)
    requires |rs| > 0
    ensures IsLastCheapest(rs, k) <==> k == CheapestIndex(rs)
  {
  }

  /** What one submitted search produces: the guard's rejection (the alert),
      or the matching flights together with the cheapest of them. */
  datatype Outcome =
    | InvalidRoute
    | Found(results: seq<Flight>, selected: Option<Flight>)

  function Search(data: seq<Flight>, v: FormValues): (o: Outcome)
    ensures o.InvalidRoute? <==> !ValidRoute(data, v)
    ensures o.Found? ==> forall f :: f in o.results <==> f in data && Matches(f, v)
    ensures o.Found? ==> |o.results| <= |data|
    ensures o.Found? ==> (o.selected.Some? <==> |o.results| > 0)
    ensures o.Found? && o.selected.Some? ==>
      && o.selected.value in o.results
      && forall g :: g in o.results ==> o.selected.value.price <= g.price
  {
    if !ValidRoute(data, v) then InvalidRoute
    else
      var results := Filter(data, v);
      if |results| > 0 then Found(results, Some(results[CheapestIndex(results)]))
      else Found(results, None)
  }

  /** Shows or hides the "Your Ticket" card. */
  function ToggleFormData(st: State): (st': State)
    ensures st'.showFormData != st.showFormData
    ensures st'.searchResults == st.searchResults
  {
    st.(showFormData := !st.showFormData)
  }

  /** The submit handler: a rejected route leaves the state as it was; any
      other search lists the matching flights and flips the ticket card. */
  function HandleSearchSubmit(data: seq<Flight>, st: State, v: FormValues): (st': State)
    ensures !ValidRoute(data, v) ==> st' == st
    ensures ValidRoute(data, v) ==> st'.showFormData == !st.showFormData
    ensures ValidRoute(data, v) ==>
      forall f :: f in st'.searchResults <==> f in data && Matches(f, v)
    ensures ValidRoute(data, v) ==> |st'.searchResults| <= |data|
  {
    match Search(data, v)
    case InvalidRoute => st
    case Found(results, _) => ToggleFormData(st.(searchResults := results))
  }

  /** After a passing search the listed flights are the dataset's matching
      flights in dataset order, with their multiplicities. */
  lemma PassingSearchListsFilter(data: seq<Flight>, st: State, v: FormValues)
    requires ValidRoute(data, v)
    ensures HandleSearchSubmit(data, st, v).searchResults == Filter(data, v)
    ensures forall f ::
      multiset(HandleSearchSubmit(data, st, v).searchResults)[f]
        == if Matches(f, v) then multiset(data)[f] else 0
  {
    FilterCounts(data, v);
  }

  /** Passenger type, price range and tab take no part in a search. */
  lemma SearchSameRoute(data: seq<Flight>, st: State, v: FormValues, w: FormValues)
    requires SameRoute(v, w)
    ensures Search(data, v) == Search(data, w)
    ensures HandleSearchSubmit(data, st, v) == HandleSearchSubmit(data, st, w)
  {
    FilterSameRoute(data, v, w);
  }

  /** With an empty return date on the form, as on a fresh one-way form, a
      search that passes the origin/destination guard lists only one-way
      flights. */
  lemma EmptyReturnDateListsOneWayOnly(data: seq<Flight>, st: State, v: FormValues)
    requires v.returnDate == ""
    requires ValidRoute(data, v)
    ensures forall f :: f in HandleSearchSubmit(data, st, v).searchResults ==> f.returnDate == ""
  {
  }

  /** The selected flight is the last of the cheapest results. */
  lemma SelectedIsLastCheapest(data: seq<Flight>, v: FormValues)
    requires Search(data, v).Found? && Search(data, v).selected.Some?
    ensures exists k :: (IsLastCheapest(Search(data, v).results, k)
                         && Search(data, v).results[k] == Search(data, v).selected.value)
  {
  }

  /** Two passing searches in a row restore the ticket card's visibility. */
  lemma TwoPassingSearchesRestoreVisibility(data: seq<Flight>, st: State, v: FormValues, w: FormValues)
    requires ValidRoute(data, v) && ValidRoute(data, w)
    ensures HandleSearchSubmit(data, HandleSearchSubmit(data, st, v), w).showFormData == st.showFormData
  {
  }

  /** Comparisons are case-sensitive: a lower-case city does not match the
      dataset's upper-case one, and the guard rejects the search. */
  lemma CaseSensitiveRoute()
    ensures
      var nyc := Flight("Air", "NYC", "LON", "2024-01-01", "", 400);
      var v := FormValues(OneWayTab, "nyc", "lon", "2024-01-01", "", "Adult", 0, 1000);
      Search([nyc], v) == InvalidRoute
  {
  }

  /** With the dataset's own spelling the same query lists that flight and
      selects it. */
  lemma ExactSpellingFindsFlight()
    ensures
      var nyc := Flight("Air", "NYC", "LON", "2024-01-01", "", 400);
      var v := FormValues(OneWayTab, "NYC", "LON", "2024-01-01", "", "Adult", 0, 1000);
      Search([nyc], v) == Found([nyc], Some(nyc))
  {
    var nyc := Flight("Air", "NYC", "LON", "2024-01-01", "", 400);
    var v := FormValues(OneWayTab, "NYC", "LON", "2024-01-01", "", "Adult", 0, 1000);
    assert ValidRoute([nyc], v) by {
      assert [nyc][0].origin == v.origin && [nyc][0].destination == v.destination;
    }
    assert [nyc][1..] == [];
  }

  /** Once loaded, every dataset flight is listed and the ticket card is untouched. */
  lemma LoadedResultsAreTheDataset(data: seq<Flight>, st: State)
    ensures InitialLoad(data, st).searchResults == data
    ensures InitialLoad(data, st).showFormData == st.showFormData
  {
  }
}

=== FILE: search_form.dfy ===
/** The form around the search: which fields are required on which tab, when
    the Search button is disabled, what switching tabs does to the values,
    and how a submit reaches the search step. */
module SearchForm {
  import opened FlightData
  import opened FlightSearch

  /** The validated fields of the form. */
  datatype Field = Origin | Destination | DepartureDate | ReturnDate | Passengers

  /** The text a field holds. */
  function FieldValue(v: FormValues, f: Field): string
  {
    match f
    case Origin => v.origin
    case Destination => v.destination
    case DepartureDate => v.departureDate
    case ReturnDate => v.returnDate
    case Passengers => v.passengers
  }

  /** The schema's required-ness: the return date only on the "Return" tab,
      every other field always. */
  predicate Required(tab: int, f: Field)
  {
    f != ReturnDate || tab == ReturnTab
  }

  /** Adds `f` to `errs` when its value is missing. */
  function CheckPresent(errs: set<Field>, v: FormValues, f: Field): set<Field>
  {
    if FieldValue(v, f) == "" then errs + {f} else errs
  }

  /** The fields the schema reports for the values `v` when `tab` is selected. */
  function Errors(tab: int, v: FormValues): (errs: set<Field>)
    ensures forall f :: f in errs <==> Required(tab, f) && FieldValue(v, f) == ""
  {
    var always := CheckPresent(CheckPresent(CheckPresent(CheckPresent(
      {}, v, Origin), v, Destination), v, DepartureDate), v, Passengers);
    if tab == ReturnTab then CheckPresent(always, v, ReturnDate) else always
  }

  /** The Search button is disabled while any error is reported. */
  predicate SubmitDisabled(errs: set<Field>)
  {
    |errs| != 0
  }

  /** The Search button is enabled exactly when origin, destination,
      departure date and passengers are filled in, and also the return date
      on the "Return" tab. */
  lemma SubmitEnabledIff(tab: int, v: FormValues)
    ensures !SubmitDisabled(Errors(tab, v)) <==>
      && v.origin != ""
      && v.destination != ""
      && v.departureDate != ""
      && v.passengers != ""
      && (tab == ReturnTab ==> v.returnDate != "")
  {
  }

  /** A missing return date is an error exactly on the "Return" tab. */
  lemma ReturnDateRequiredIff(tab: int, v: FormValues)
    requires v.returnDate == ""
    ensures ReturnDate in Errors(tab, v) <==> tab == ReturnTab
  {
  }

  /** The fresh form reports every always-required field and nothing else. */
  lemma InitialErrors()
    ensures Errors(OneWayTab, InitialValues) == {Origin, Destination, DepartureDate, Passengers}
    ensures Errors(ReturnTab, InitialValues) == {Origin, Destination, DepartureDate, ReturnDate, Passengers}
  {
  }

  /** Switching tabs records the new tab and keeps every value entered. */
  function TabChange(v: FormValues, newTab: int): (w: FormValues)
    ensures w.tabValue == newTab
    ensures SameRoute(v, w)
    ensures w.passengers == v.passengers
    ensures w.priceLow == v.priceLow && w.priceHigh == v.priceHigh
  {
    v.(tabValue := newTab)
  }

  /** Switching tabs alone never changes what a search finds or does: the
      tab is not among the compared fields. */
  lemma TabChangeKeepsSearch(data: seq<Flight>, st: State, v: FormValues, newTab: int)
    ensures Search(data, TabChange(v, newTab)) == Search(data, v)
    ensures HandleSearchSubmit(data, st, TabChange(v, newTab)) == HandleSearchSubmit(data, st, v)
  {
    SearchSameRoute(data, st, TabChange(v, newTab), v);
  }

  /** A submit runs the schema first: with any error the search step is not
      reached and nothing changes; otherwise it is the search step. */
  function Submit(data: seq<Flight>, tab: int, st: State, v: FormValues): (st': State)
    ensures SubmitDisabled(Errors(tab, v)) ==> st' == st
    ensures !SubmitDisabled(Errors(tab, v)) ==> st' == HandleSearchSubmit(data, st, v)
  {
    if SubmitDisabled(Errors(tab, v)) then st else HandleSearchSubmit(data, st, v)
  }

  /** A search that reaches the filter always compares real values: origin,
      destination and departure date of every listed flight are non-empty,
      and on the "Return" tab so is the return date. */
  lemma SubmittedResultsHaveRequiredFields(data: seq<Flight>, tab: int, st: State, v: FormValues)
    requires !SubmitDisabled(Errors(tab, v)) && ValidRoute(data, v)
    ensures forall f :: f in Submit(data, tab, st, v).searchResults ==>
      && f.origin != "" && f.destination != "" && f.departureDate != ""
      && (tab == ReturnTab ==> f.returnDate != "")
  {
  }

  /** A one-way search from the fresh form, with only the one-way fields
      filled in, lists one-way flights only. */
  lemma FreshOneWaySearchListsOneWayOnly(data: seq<Flight>, st: State, origin: string, destination: string, departure: string, passengers: string)
    requires origin != "" && destination != "" && departure != "" && passengers != ""
    requires ValidRoute(data, InitialValues.(origin := origin, destination := destination, departureDate := departure, passengers := passengers))
    ensures
      var v := InitialValues.(origin := origin, destination := destination, departureDate := departure, passengers := passengers);
      forall f :: f in Submit(data, OneWayTab, st, v).searchResults ==> f.returnDate == ""
  {
  }

  /** Switching back to "One Way" keeps a return date chosen on the "Return"
      tab, and the search still compares it: a one-way flight on the same
      route and day is not listed. */
  lemma StaleReturnDateHidesOneWayFlights()
    ensures
      var oneWay := Flight("Air", "NYC", "LON", "2024-01-01", "", 400);
      var onReturn := FormValues(ReturnTab, "NYC", "LON", "2024-01-01", "2024-01-10", "Adult", 0, 1000);
      var v := TabChange(onReturn, OneWayTab);
      && !SubmitDisabled(Errors(OneWayTab, v))
      && Submit([oneWay], OneWayTab, InitialState, v).searchResults == []
  {
  }
}
